=== FILE: README.md ===
# Portfolio intro animation and role modal, modelled in Dafny

This project models the two pieces of logic inside the portfolio site that are
more than markup.

- **The particle intro controller** (`components/ParticleBackground.tsx`).
  The timeline maps elapsed seconds to one of five phases: drip-form,
  drip-fall, splash, explosion and settle. Drip-fall, splash, explosion and
  settle each have their own normalised progress value. Drip-fall, splash and
  explosion ease with cubic polynomials (`easeInCubic`, `easeOutCubic`).
  Settle eases with the transcendental `easeOutElastic`, and drip-form uses
  neither. After each particle update, a
  radius clamp runs in the settle phase. A one-shot guard calls
  `onIntroComplete` at most once per mount, on the first frame at or after
  6.0 s. The theme effect records the current theme (`currentThemeRef`, read by
  the next mount) and changes the clear colour, the material and the colour
  buffer, and nothing else. `hslToRgb` and `applyColors` produce the particle
  colours.
- **The role modal** (`components/RoleModal.tsx`). Four structural type
  guards classify an item by which keys it has. Nine getters project fields
  out of the item. A visibility machine drives opening and closing
  (`isVisible`, `isAnimating`, a queued animation frame and a 400 ms close
  timer). Two text rules choose the status-badge text and the link-button
  label.

Files:

| file | module | contents |
|---|---|---|
| `options.dfy` | `Options` | `Option`: present key / absent key |
| `intro_timeline.dfy` | `IntroTimeline` | phases, progress values, easing |
| `particle_colors.dfy` | `ParticleColors` | `hslToRgb`, the HSL read-back used as its partner, theme bands, `applyColors` |
| `intro_controller.dfy` | `IntroController` | the component's state, the mount effect, one frame, the theme effect, runs and the notify-once guard |
| `modal_items.dfy` | `ModalItems` | the shapes in `data/types.ts`, the runtime object, the guards, the getters |
| `modal_view.dfy` | `ModalView` | the visibility machine, badge, link button, rendered view |

Modelling conventions:

- Times and colours are `real`.
- Randomness and transcendental numerics are parameters:
  - the `Math.random()` draws of a recolouring arrive as `Draw` values in [0, 1);
  - the per-particle motion formulas arrive as opaque `ParticleStep` values;
  - `Math.sqrt` of a squared length arrives as a value `len` with `len >= 0 && len * len == NormSq(v)`.
- A JavaScript object is a record of `Option` fields. A key is present exactly
  when its field is `Some`, because the guards test `'key' in item` and not
  the key's value.

Facts about `ParticleBackground.tsx` that shape the model:

- The only state a frame writes that a later frame reads is the one-shot
  guard `introNotifiedRef` (line 23), the positions, the velocities and the
  rotation. The pointer position and the material persist too but are not
  written by a frame. The phase is recomputed from the elapsed time on every
  frame (lines 297-308).
- The explosion phase integrates the splash velocities, damped by a slowdown
  factor `1 - easeOutCubic(p) * 0.8` (lines 356-367).
- The settle phase moves each particle toward its target by the fraction
  `easeOutElastic(settleProgress) * 0.05` per frame (lines 369-375). That
  fraction is 0 at 4.5 s, oscillates until 6.0 s and is exactly 0.05 from
  6.0 s on. From 5.7 s the ambient motion of lines 377-396 is added on top.
  Particles are never snapped onto the target.
- Five phases exist: drip-form, drip-fall, splash, explosion and settle
  (lines 303-308).
- Without a container element the mount effect returns at line 86, so the
  completion callback never fires; nothing else calls it (lines 419-422 are
  the only call site).

## Model

| member | source | states |
|---|---|---|
| `IntroTimeline.PhaseAtIsWindow` | portfolio/src/components/ParticleBackground.tsx:303-308 | the selected phase is exactly the one whose time window contains the elapsed value. Negative values count as drip-form. |
| `IntroTimeline.WindowsPartition` | portfolio/src/components/ParticleBackground.tsx:303-308 | for every elapsed value some phase window contains it, and no two windows overlap, so exactly one phase holds |
| `IntroTimeline.PhaseMonotone` | portfolio/src/components/ParticleBackground.tsx:297-308 | a later time never selects an earlier phase |
| `IntroTimeline.FallProgress` | portfolio/src/components/ParticleBackground.tsx:325 | inside drip-fall the fall progress lies in [0, 1) |
| `IntroTimeline.SplashProgress` | portfolio/src/components/ParticleBackground.tsx:338 | inside splash the splash progress lies in [0, 1) |
| `IntroTimeline.ExplosionProgress` | portfolio/src/components/ParticleBackground.tsx:357 | inside explosion the explosion progress lies in [0, 1) |
| `IntroTimeline.SettleProgress` | portfolio/src/components/ParticleBackground.tsx:370 | settle progress never exceeds 1 and is non-negative inside settle. It equals 1 exactly when elapsed ≥ 6.0 s, the total duration. |
| `IntroTimeline.AmbientStrength` | portfolio/src/components/ParticleBackground.tsx:377-378 | when settle progress is in (0.8, 1] the ambient strength lies in (0, 1]. It reaches 1 when settling is complete. |
| `IntroTimeline.AmbientActiveWindow` | portfolio/src/components/ParticleBackground.tsx:370-378 | ambient motion is on exactly when elapsed > 5.7 s |
| `IntroTimeline.EaseOutCubic` | portfolio/src/components/ParticleBackground.tsx:253 | fixes 0 and 1, maps [0, 1] into [0, 1], and stays below 1 on [0, 1) |
| `IntroTimeline.EaseInCubic` | portfolio/src/components/ParticleBackground.tsx:254 | fixes 0 and 1 and maps each t in [0, 1] into [0, t] |
| `IntroTimeline.EaseOutCubicMonotone` | portfolio/src/components/ParticleBackground.tsx:253 | ease-out cubic is monotone on all reals |
| `IntroTimeline.EaseInCubicMonotone` | portfolio/src/components/ParticleBackground.tsx:254 | ease-in cubic is monotone on all reals |
| `IntroTimeline.CubeMonotone` | portfolio/src/components/ParticleBackground.tsx:253-254 | cubing, the core of both cubic curves, is monotone on all reals |
| `IntroTimeline.EaseOutElastic` | portfolio/src/components/ParticleBackground.tsx:255-258 | returns exactly 0 at 0 and exactly 1 at 1, whatever the transcendental interior term is |
| `IntroTimeline.Slowdown` | portfolio/src/components/ParticleBackground.tsx:358 | for progress in [0, 1) the explosion slowdown lies in (0.2, 1]. It is 1 at the start. |
| `IntroTimeline.SlowdownAntitone` | portfolio/src/components/ParticleBackground.tsx:357-358 | the slowdown factor only decreases as the explosion proceeds |
| `IntroTimeline.ExplosionSlowdownRange` | portfolio/src/components/ParticleBackground.tsx:356-358 | at every elapsed time inside the explosion phase the slowdown lies in (0.2, 1] |
| `ParticleColors.HslToRgb` | portfolio/src/components/ParticleBackground.tsx:31-51 | s = 0 gives (l, l, l). For h, s, l in [0, 1] every channel lies between p and q, and so in [0, 1]. |
| `ParticleColors.BoundsInUnit` | portfolio/src/components/ParticleBackground.tsx:44-45 | for s, l in [0, 1]: 0 ≤ p ≤ l ≤ q ≤ 1, where p = 2l − q |
| `ParticleColors.Hue2RgbBetween` | portfolio/src/components/ParticleBackground.tsx:36-43 | a channel whose offset is at most one period out of range lies between p and q |
| `ParticleColors.HslExtremes` | portfolio/src/components/ParticleBackground.tsx:36-48 | for inputs in [0, 1] the brightest channel is exactly q and the darkest exactly p |
| `ParticleColors.LightnessRoundTrip` | portfolio/src/components/ParticleBackground.tsx:31-51 | reading the HSL lightness back from the RGB result returns the input lightness |
| `ParticleColors.SaturationRoundTrip` | portfolio/src/components/ParticleBackground.tsx:31-51 | reading the HSL saturation back from the RGB result returns the input saturation, for lightness in (0, 1) |
| `ParticleColors.Mod1` | portfolio/src/components/ParticleBackground.tsx:62 | JavaScript's `% 1` of a non-negative value lies in [0, 1) |
| `ParticleColors.ThemeBands` | portfolio/src/components/ParticleBackground.tsx:62-73 | with draws in [0, 1), hue lies in [0, 1). Saturation lies in [0.7, 1) for dark and [0.9, 1) for light. Lightness lies in [0.6, 0.9) for dark and [0.3, 0.45) for light. |
| `ParticleColors.ParticleColorInBand` | portfolio/src/components/ParticleBackground.tsx:62-75 | every particle colour has channels in [0, 1], and its read-back lightness lies in its theme's band |
| `ParticleColors.DarkBrighterThanLight` | portfolio/src/components/ParticleBackground.tsx:65-73 | every dark-theme particle colour is lighter than every light-theme one |
| `ParticleColors.Store` | portfolio/src/components/ParticleBackground.tsx:76-78 | a typed-array store changes only the index written, and a write past the end changes nothing |
| `ParticleColors.ApplyColors` | portfolio/src/components/ParticleBackground.tsx:54-82 | with no buffer it is a no-op. Otherwise the length is kept and every index 3i+j holds channel j of particle i's colour, so particle i writes only indices 3i..3i+2. |
| `IntroController.ClampRadius` | portfolio/src/components/ParticleBackground.tsx:399-405 | before settle, positions are untouched. In settle the squared radius is at most 4.5². A point outside is placed exactly on the radius-4.5 sphere. A point already inside is never moved, and every result is the input scaled along its own direction by a factor in (0, 1]. |
| `IntroController.ClampedOnSphere` | portfolio/src/components/ParticleBackground.tsx:401-405 | a point beyond radius 4.5 is rescaled onto the sphere of radius 4.5 |
| `IntroController.Initial` | portfolio/src/components/ParticleBackground.tsx:21-24 | before any effect runs, the guard is clear, no call has happened and no scene exists, so the notify-once invariant holds from the first render |
| `IntroController.Mount` | portfolio/src/components/ParticleBackground.tsx:85-162 | with no container it does nothing. Otherwise it clears the guard and the per-mount call count and sets every position to its start point and every velocity to zero. The clock starts, the clear colour and material follow the current theme, and the colour buffer is exactly `applyColors` for the current theme (line 162). Theme and callback are kept. |
| `IntroController.RemountNotifiesAtMostOnce` | portfolio/src/components/ParticleBackground.tsx:419-422 | after a mount on a container, whatever happened before it, any run of frames, theme changes and callback changes calls the completion callback at most once |
| `IntroController.MoveAll` | portfolio/src/components/ParticleBackground.tsx:310-410 | before settle each particle takes its phase update unchanged. In settle every squared radius is at most 4.5², and a particle whose update lies outside radius 4.5 lands exactly on that sphere. A particle whose update is already inside radius 4.5 keeps it, and every particle is its update scaled by a factor in (0, 1]. |
| `IntroController.Spin` | portfolio/src/components/ParticleBackground.tsx:414-417 | the field rotates only after 5 s, and rotation never touches positions |
| `IntroController.Guard` | portfolio/src/components/ParticleBackground.tsx:419-422 | the guard becomes set exactly when elapsed ≥ 6.0 s. It calls at most once, only if it was not yet set and a callback is installed, and never again once set. |
| `IntroController.Frame` | portfolio/src/components/ParticleBackground.tsx:282-425 | one frame keeps the start and target positions, the clock, the colours, the clear colour and the material. Velocities change only in splash. Each new position is the particle's update scaled by a factor in (0, 1]: unchanged before settle or when already inside radius 4.5, and within radius 4.5 in settle, where an update outside that radius lands exactly on the sphere. The notify-once rule applies. |
| `IntroController.ApplyTheme` | portfolio/src/components/ParticleBackground.tsx:456-473 | sets the clear colour, swaps the material and rewrites every colour index. It never changes positions, start or target positions, velocities, the clock, rotation, the guard or the call count. |
| `IntroController.SetCallback` | portfolio/src/components/ParticleBackground.tsx:26-28 | replacing the callback changes nothing but the installed callback |
| `IntroController.NotifyAtMostOnce` | portfolio/src/components/ParticleBackground.tsx:419-422 | over any run of frames, theme changes and callback changes, the callback is called at most once. A call implies the guard is set. |
| `IntroController.NotifiedIsFinal` | portfolio/src/components/ParticleBackground.tsx:419-422 | once the guard is set it stays set, and the call count never changes again |
| `IntroController.CallOnlyAfterTotal` | portfolio/src/components/ParticleBackground.tsx:419-422 | if a run calls the callback, it contains a frame at which elapsed ≥ 6.0 s |
| `IntroController.RunKeepsGeometry` | portfolio/src/components/ParticleBackground.tsx:114-151 | no run changes the clock start, the start or target positions, or the buffer sizes, so the buffer shapes established at mount hold after every run |
| `IntroController.ThemeCommutesWithFrame` | portfolio/src/components/ParticleBackground.tsx:456-473 | a theme change and a frame commute: recolouring never disturbs the timeline, and frames never disturb the colours |
| `ModalItems.WorkAndExtracurricularOverlap` | portfolio/src/components/RoleModal.tsx:17-23 | an object passes both the work and the extracurricular guard exactly when it is a work object with an empty technology list |
| `ModalItems.ProjectExcludesOrganization` | portfolio/src/components/RoleModal.tsx:25-27 | a project object passes neither the work guard nor the extracurricular guard |
| `ModalItems.WorkBranchWins` | portfolio/src/components/RoleModal.tsx:211-262 | whenever the work guard holds, the getters read the work fields, whatever the extracurricular guard says |
| `ModalItems.NeutralValues` | portfolio/src/components/RoleModal.tsx:211-262 | status is null unless the item is a project, and courses are empty unless it is education. With no matching guard, subtitle, period and location are empty. |
| `ModalItems.WorkObjectProjection` | portfolio/src/components/RoleModal.tsx:211-262 | a work-shaped object is classified as work, and as extracurricular exactly when it has no technologies. The getters return its own fields. |
| `ModalItems.ExtracurricularObjectProjection` | portfolio/src/components/RoleModal.tsx:211-262 | an extracurricular-shaped object with bullets and non-empty technologies is classified as work instead. The getters return its own fields either way. |
| `ModalItems.ProjectObjectProjection` | portfolio/src/components/RoleModal.tsx:211-262 | a project-shaped object is only a project. It gets an empty subtitle, period and location, its own status, and no courses. |
| `ModalItems.EducationObjectProjection` | portfolio/src/components/RoleModal.tsx:211-262 | an education-shaped object is only education. Its subtitle is the institution, it has its own courses, and every other field is neutral. |
| `ModalView.OpenEffect` | portfolio/src/components/RoleModal.tsx:40-51 | opening makes the modal visible at once and queues the frame that starts the animation. Closing stops the animation at once and starts the 400 ms timer. |
| `ModalView.MountIsCoherent` | portfolio/src/components/RoleModal.tsx:36-51 | the first render satisfies the visibility invariant, and the modal is visible exactly when it starts open |
| `ModalView.RunKeepsCoherent` | portfolio/src/components/RoleModal.tsx:40-51 | every event keeps the invariant: visible while open, and when closed only while the timer runs |
| `ModalView.OpenThenFrame` | portfolio/src/components/RoleModal.tsx:41-45 | opening makes the modal visible, and the next animation frame sets animating |
| `ModalView.CloseCountdown` | portfolio/src/components/RoleModal.tsx:46-49 | until the modal is reopened, the close timer counts down by exactly the time that passes. Visibility is unchanged until the timer runs out and false afterwards. |
| `ModalView.StaysHidden` | portfolio/src/components/RoleModal.tsx:46-49 | a closed, hidden modal stays hidden until it is reopened |
| `ModalView.CloseHidesAfterDelay` | portfolio/src/components/RoleModal.tsx:46-49 | closing an open modal stops the animation at once. The modal stays visible for less than 400 ms of elapsed time and is hidden from 400 ms on. |
| `ModalView.StaleFrameReanimates` | portfolio/src/components/RoleModal.tsx:40-51 | the frame queued by opening is never cancelled, so closing before it runs leaves the modal animating while it closes |
| `ModalView.Includes` | portfolio/src/components/RoleModal.tsx:474 | `includes` holds exactly when the pattern occurs at some index |
| `ModalView.LinkButtonFor` | portfolio/src/components/RoleModal.tsx:465-474 | the button appears only for a present, non-empty link. Its caption is "View Code" exactly when the link contains github or gitlab, and "Learn More" otherwise. |
| `ModalView.StatusBadge` | portfolio/src/components/RoleModal.tsx:324-331 | the badge appears only for a status. Its text is "Work in Progress" exactly for wip and the raw status string otherwise. It is yellow exactly for wip and blue exactly for ongoing. |
| `ModalView.BadgeTextDeterminesStatus` | portfolio/src/components/RoleModal.tsx:331 | different statuses never produce the same badge text |
| `ModalView.Shown` | portfolio/src/components/RoleModal.tsx:341-381 | a string section renders exactly when its value is a present, non-empty string |
| `ModalView.Render` | portfolio/src/components/RoleModal.tsx:208 | the modal renders nothing exactly when it is not visible or there is no item |
| `ModalView.ProjectView` | portfolio/src/components/RoleModal.tsx:211-262 | a visible project shows no subtitle, period, location or courses. It shows a badge exactly when it has a status, and a link button exactly when its link is non-empty. |
| `ModalView.EducationView` | portfolio/src/components/RoleModal.tsx:211-262 | a visible education entry shows its institution and courses, and never a badge, a link button or technologies |
| `ModalView.EmptyTechnologiesWorkEntry` | portfolio/src/data/work.ts:66-83 | the empty-technologies work entry passes both guards. It renders its organization, with no technologies, no link button and no badge. |

## Left out

- Everything three.js owns is outside the model: scene, camera, renderer, shaders, buffer attributes, `needsUpdate` flags, the `uTime` uniform and `dispose`. These are foreign library calls and GPU resources.
- The per-particle motion formulas use `sin`, `cos`, `atan2`, powers of two, the pointer position and `Math.random()`. Each frame receives their outcome as an opaque `ParticleStep`, whose position is unconstrained. Only the radius clamp is applied to it inside `Frame`. The progress values, easing curves, slowdown and ambient strength are stand-alone functions with their own contracts; no contract connects them to `Frame`.
- The random initial placement of particles, splash directions and splash speeds enter as data (`ParticleInit`) or are part of the opaque steps.
- `Math.sqrt` enters as a supplied length, because the model has no square-root function.
- Float32 storage and float64 rounding are not modelled; reals are exact. This matters for `(i * 0.1) % 1`, which in floating point is only close to the real fractional part. It also matters at 5.7 s exactly. Over exact reals `IntroTimeline.AmbientActiveWindow` puts the ambient switch strictly after 5.7 s. In float64, `(5.7 - 4.5) / 1.5` is `0.8000000000000002 > 0.8`, so the program already turns ambient motion on at 5700 ms.
- `requestAnimationFrame` scheduling, the resize and mouse-move listeners, and cleanup on unmount are DOM event plumbing.
- In one commit React runs the mount effect and then the theme effect. The model treats them as separate steps (`Mount`, then `ApplyTheme`).
- `IntroController.Mount`: the effect calls `animate()` synchronously at line 427 before it returns, so the state `Mount` returns (positions at their start points) is never observed on screen. The model leaves that first frame to a following `Tick` event of the run instead of composing it into `Mount`.
- The fire-particle canvas of the modal is random, float-driven drawing. The Escape-key and backdrop handlers are DOM events. All class strings and theme colours of the markup are styling.
- A key present with the value `undefined` (for example `technologies: undefined`, which `ExtracurricularItem` allows and `isWorkItem` accepts at RoleModal.tsx:18) cannot be represented: `Option` has only present-with-value and absent. No data entry has such a key.
- `getStatus` returns `null` for non-projects and `undefined` for a project without a status. The model maps both to `None`; the badge treats them alike.
- `page.tsx`, `SocialIcons.tsx`, `ResumeModal.tsx` and `LaserBackground.tsx` are presentational, and the data tables are static content. One data entry is used as a concrete instance.
- `IntroTimeline.EaseOutElastic`: the interior value `2^(-10t) * sin((10t - 0.75) * 2π/3) + 1` is a parameter, so no bound on it is stated. Only the exact endpoint values are.

=== FILE: intro_controller.dfy ===
/** The intro controller of components/ParticleBackground.tsx with the WebGL
    drawing stripped away: the state the component keeps in refs and closure
    variables, the mount effect, one animation frame, the theme effect and
    the one-shot completion guard. */
module IntroController {
  import opened Options
  import opened IntroTimeline
  import opened ParticleColors

  const ParticleCount: nat := 500

  /** Radius of the sphere settled particles are kept inside. */
  const MaxRadius: real := 4.5

  /** Background clear colours, as 24-bit RGB integers. */
  const DarkClearColor: int := 0x050505
  const LightClearColor: int := 0xf7f7f9

  function ClearColor(mode: ThemeMode): int {
    match mode
    case Dark => DarkClearColor
    case Light => LightClearColor
  }

  datatype Vec3 = Vec3(x: real, y: real, z: real)

  function NormSq(v: Vec3): real {
    v.x * v.x + v.y * v.y + v.z * v.z
  }

  function Scale(v: Vec3, k: real): Vec3 {
    Vec3(v.x * k, v.y * k, v.z * k)
  }

  const Origin: Vec3 := Vec3(0.0, 0.0, 0.0)

  lemma NormSqScale(v: Vec3, k: real)
    ensures NormSq(Scale(v, k)) == k * k * NormSq(v)
  {
    assert (v.x * k) * (v.x * k) == k * k * (v.x * v.x);
    assert (v.y * k) * (v.y * k) == k * k * (v.y * v.y);
    assert (v.z * k) * (v.z * k) == k * k * (v.z * v.z);
  }

  /** `Math.sqrt` of a squared length, which enters the model as a value the
      caller supplies rather than one it computes. */
  predicate IsLength(v: Vec3, len: real) {
    len >= 0.0 && len * len == NormSq(v)
  }

  /** `r` is `v` shrunk toward the origin along its own direction. */
  ghost predicate ScaledDown(r: Vec3, v: Vec3) {
    exists k: real :: 0.0 < k <= 1.0 && r == Scale(v, k)
  }

  /** Each position of `ps` comes from the update in `steps` at the same
      index: kept when that update lies inside radius 4.5, and in every case
      shrunk along its own direction. */
  ghost predicate ClampedFrom(ps: seq<Vec3>, steps: seq<ParticleStep>)
    requires |ps| == |steps|
  {
    && (forall i :: 0 <= i < |steps| && NormSq(steps[i].pos) <= MaxRadius * MaxRadius ==> ps[i] == steps[i].pos)
    && (forall i :: 0 <= i < |steps| ==> ScaledDown(ps[i], steps[i].pos))
  }

  /** The positions a frame leaves for the phase: the updates themselves
      before settle, and inside radius 4.5 in settle, with every update that
      lay outside placed on the sphere; in both, clamped from the updates. */
  ghost predicate Placed(ps: seq<Vec3>, steps: seq<ParticleStep>, phase: Phase) {
    && |ps| == |steps|
    && (phase != Settle ==> forall i :: 0 <= i < |steps| ==> ps[i] == steps[i].pos)
    && (phase == Settle ==> forall i :: 0 <= i < |steps| ==> NormSq(ps[i]) <= MaxRadius * MaxRadius)
    && (phase == Settle ==> forall i :: 0 <= i < |steps| && NormSq(steps[i].pos) > MaxRadius * MaxRadius ==>
          NormSq(ps[i]) == MaxRadius * MaxRadius)
    && ClampedFrom(ps, steps)
  }

  /** The radius clamp run after every particle update: only in the settle
      phase, a particle outside the sphere of radius 4.5 is pulled back onto it
      along its own direction; in every earlier phase positions are left
      alone. */
  function ClampRadius(v: Vec3, len: real, phase: Phase): (r: Vec3)
    requires IsLength(v, len)
    ensures phase != Settle ==> r == v
    ensures phase == Settle ==> NormSq(r) <= MaxRadius * MaxRadius
    ensures phase == Settle && NormSq(v) > MaxRadius * MaxRadius ==> NormSq(r) == MaxRadius * MaxRadius
    ensures NormSq(v) <= MaxRadius * MaxRadius ==> r == v
    ensures ScaledDown(r, v)
  {
    if len > MaxRadius && phase.Ordinal() >= Settle.Ordinal() then
      var k := MaxRadius / len;
      ClampedOnSphere(v, len);
      Scale(v, k)
    else
      SquareMonotone(len, MaxRadius);
      assert v == Scale(v, 1.0);
      v
  }

  lemma SquareMonotone(a: real, b: real)
    ensures 0.0 <= a <= b ==> a * a <= b * b
  {
  }

  lemma ClampedOnSphere(v: Vec3, len: real)
    requires IsLength(v, len) && len > MaxRadius
    ensures NormSq(Scale(v, MaxRadius / len)) == MaxRadius * MaxRadius
    ensures NormSq(v) > MaxRadius * MaxRadius
  {
    var k := MaxRadius / len;
    NormSqScale(v, k);
    assert k * len == MaxRadius;
    calc {
      k * k * NormSq(v);
      k * k * (len * len);
      (k * len) * (k * len);
    }
  }

  // ---------------------------------------------------------------------
  // State

  /** The particle buffers and scene-level values that exist once the mount
      effect has built the scene. */
  datatype Scene = Scene(
    clearColor: int,
    material: ThemeMode,
    colors: seq<real>,
    positions: seq<Vec3>,
    starts: seq<Vec3>,
    targets: seq<Vec3>,
    velocities: seq<Vec3>,
    startMs: int,
    rotX: real,
    rotY: real)

  /** The component's refs: the current theme, whether a completion callback
      is installed, the built scene (absent until the mount effect has run on
      an attached container), the one-shot guard, and the number of times the
      completion callback has been invoked in this mount. */
  datatype Controller = Controller(
    theme: ThemeMode,
    hasCallback: bool,
    scene: Option<Scene>,
    notified: bool,
    calls: nat)

  /** Refs at first render, before any effect has run. */
  function Initial(theme: ThemeMode, hasCallback: bool): (c: Controller)
    ensures !c.notified && c.calls == 0 && c.scene.None?
    ensures GuardInvariant(c)
  {
    Controller(theme, hasCallback, None, false, 0)
  }

  /** Per-particle random initial placement (a point of the blob above the
      field and a resting point of the shell); drawn with trigonometry from
      `Math.random()`, so it enters as data. */
  datatype ParticleInit = ParticleInit(start: Vec3, target: Vec3)

  /** The mount effect.  Without a container it does nothing; otherwise it
      resets the guard (and the per-mount call count), builds the scene with every particle at its start
      point and zero velocity, colours it for the current theme, and starts the
      clock. */
  function Mount(c: Controller, hasContainer: bool, nowMs: int, init: seq<ParticleInit>, draws: seq<Draw>)
    : (r: Controller)
    requires |init| == ParticleCount && Slots(3 * ParticleCount) <= |draws|
    ensures !hasContainer ==> r == c
    ensures r.theme == c.theme && r.hasCallback == c.hasCallback
    ensures hasContainer ==> !r.notified && r.calls == 0 && r.scene.Some?
    ensures hasContainer ==> WellFormed(r.scene.value)
    ensures hasContainer ==> r.scene.value.colors == Recolored(3 * ParticleCount, c.theme, draws)
    ensures hasContainer ==> var sc := r.scene.value;
      && sc.startMs == nowMs
      && sc.clearColor == ClearColor(c.theme) && sc.material == c.theme
      && (forall i :: 0 <= i < ParticleCount ==>
            sc.positions[i] == sc.starts[i] == init[i].start && sc.targets[i] == init[i].target
            && sc.velocities[i] == Origin)
  {
    if !hasContainer then c
    else
      var starts := seq(ParticleCount, i requires 0 <= i < ParticleCount => init[i].start);
      var targets := seq(ParticleCount, i requires 0 <= i < ParticleCount => init[i].target);
      var scene := Scene(
        ClearColor(c.theme), c.theme, Recolored(3 * ParticleCount, c.theme, draws),
        starts, starts, targets, seq(ParticleCount, _ => Origin), nowMs, 0.0, 0.0);
      c.(scene := Some(scene), notified := false, calls := 0)
  }

  /** Buffer shapes fixed at allocation and never changed. */
  predicate WellFormed(sc: Scene) {
    && |sc.positions| == ParticleCount
    && |sc.starts| == ParticleCount
    && |sc.targets| == ParticleCount
    && |sc.velocities| == ParticleCount
    && |sc.colors| == 3 * ParticleCount
  }

  // ---------------------------------------------------------------------
  // One animation frame

  /** The outcome of one particle's per-phase motion formula this frame
      (trigonometry and `Math.random()`, so it enters as data): the new
      position before the clamp, the velocity the splash phase records, and
      the length of that position. */
  datatype ParticleStep = ParticleStep(pos: Vec3, vel: Vec3, len: real)

  predicate FrameInput(sc: Scene, steps: seq<ParticleStep>) {
    && |steps| == |sc.positions|
    && forall i :: 0 <= i < |steps| ==> IsLength(steps[i].pos, steps[i].len)
  }

  /** Does this frame fire the completion guard? */
  predicate Fires(c: Controller, elapsed: real) {
    !c.notified && elapsed >= TotalDuration
  }

  /** Every particle moved by its step and then clamped for the phase. */
  function MoveAll(steps: seq<ParticleStep>, phase: Phase): (ps: seq<Vec3>)
    requires forall i :: 0 <= i < |steps| ==> IsLength(steps[i].pos, steps[i].len)
    ensures Placed(ps, steps, phase)
  {
    seq(|steps|, i requires 0 <= i < |steps| => ClampRadius(steps[i].pos, steps[i].len, phase))
  }

  /** Velocities are recorded in the splash phase and kept otherwise. */
  function RecordVelocities(previous: seq<Vec3>, steps: seq<ParticleStep>, phase: Phase): seq<Vec3> {
    if phase == Splash then seq(|steps|, i requires 0 <= i < |steps| => steps[i].vel) else previous
  }

  /** The slow whole-field rotation, switched on strictly after five seconds. */
  function Spin(sc: Scene, elapsed: real): (sc': Scene)
    ensures sc'.positions == sc.positions && sc'.velocities == sc.velocities
    ensures elapsed <= 5.0 ==> sc' == sc
    ensures elapsed > 5.0 ==> sc'.rotX > sc.rotX && sc'.rotY > sc.rotY
  {
    if elapsed > 5.0 then sc.(rotX := sc.rotX + 0.001, rotY := sc.rotY + 0.002) else sc
  }

  /** The guard at the end of a frame: the first frame at or after the total
      duration sets it and calls the installed callback; no other frame calls. */
  function Guard(c: Controller, elapsed: real): (r: Controller)
    ensures r.scene == c.scene && r.theme == c.theme && r.hasCallback == c.hasCallback
    ensures r.notified <==> c.notified || elapsed >= TotalDuration
    ensures c.notified ==> r.calls == c.calls
    ensures r.calls != c.calls ==> r.calls == c.calls + 1 && Fires(c, elapsed) && c.hasCallback
    ensures Fires(c, elapsed) && c.hasCallback ==> r.calls == c.calls + 1
  {
    var fire := Fires(c, elapsed);
    c.(notified := c.notified || fire,
       calls := if fire && c.hasCallback then c.calls + 1 else c.calls)
  }

  /** The body of `animate`: select the phase, move and clamp every particle,
      record splash velocities, spin the field after five seconds, and run the
      completion guard. */
  function Frame(c: Controller, nowMs: int, steps: seq<ParticleStep>): (r: Controller)
    requires c.scene.Some? && FrameInput(c.scene.value, steps)
    ensures r.scene.Some? && r.theme == c.theme && r.hasCallback == c.hasCallback
    ensures var sc, sc' := c.scene.value, r.scene.value;
      var e := ElapsedSeconds(nowMs, sc.startMs);
      && sc'.starts == sc.starts && sc'.targets == sc.targets && sc'.startMs == sc.startMs
      && sc'.colors == sc.colors && sc'.clearColor == sc.clearColor && sc'.material == sc.material
      && |sc'.positions| == |sc.positions|
      && Placed(sc'.positions, steps, PhaseAt(e))
      && (PhaseAt(e) != Splash ==> sc'.velocities == sc.velocities)
    ensures var e := ElapsedSeconds(nowMs, c.scene.value.startMs);
      && (r.notified <==> c.notified || e >= TotalDuration)
      && (c.notified ==> r.calls == c.calls)
      && (r.calls != c.calls ==> r.calls == c.calls + 1 && Fires(c, e) && c.hasCallback)
      && (Fires(c, e) && c.hasCallback ==> r.calls == c.calls + 1)
  {
    var sc := c.scene.value;
    var e := ElapsedSeconds(nowMs, sc.startMs);
    var phase := PhaseAt(e);
    var moved := sc.(
      positions := MoveAll(steps, phase),
      velocities := RecordVelocities(sc.velocities, steps, phase));
    Guard(c.(scene := Some(Spin(moved, e))), e)
  }

  // ---------------------------------------------------------------------
  // Theme and callback effects

  predicate ThemeInput(c: Controller, draws: seq<Draw>) {
    c.scene.Some? ==> Slots(|c.scene.value.colors|) <= |draws|
  }

  /** The theme effect: remember the theme and, once the scene exists, set the
      clear colour, swap the material and rewrite the colour buffer.  Nothing
      else changes: not the geometry, not the clock, not the guard. */
  function ApplyTheme(c: Controller, theme: ThemeMode, draws: seq<Draw>): (r: Controller)
    requires ThemeInput(c, draws)
    ensures r.theme == theme
    ensures r.hasCallback == c.hasCallback && r.notified == c.notified && r.calls == c.calls
    ensures r.scene.Some? <==> c.scene.Some?
    ensures c.scene.Some? ==> var sc, sc' := c.scene.value, r.scene.value;
      && sc'.clearColor == ClearColor(theme) && sc'.material == theme
      && |sc'.colors| == |sc.colors|
      && (forall k :: 0 <= k < |sc.colors| ==>
            sc'.colors[k] == Channel(ParticleColor(k / 3, theme, draws[k / 3]), k % 3))
      && sc'.positions == sc.positions && sc'.starts == sc.starts && sc'.targets == sc.targets
      && sc'.velocities == sc.velocities && sc'.startMs == sc.startMs
      && sc'.rotX == sc.rotX && sc'.rotY == sc.rotY
  {
    match c.scene
    case None => c.(theme := theme)
    case Some(sc) =>
      c.(theme := theme,
         scene := Some(sc.(
           clearColor := ClearColor(theme),
           material := theme,
           colors := Recolored(|sc.colors|, theme, draws))))
  }

  /** The effect that tracks the latest `onIntroComplete` prop. */
  function SetCallback(c: Controller, present: bool): (r: Controller)
    ensures r.hasCallback == present
    ensures r.scene == c.scene && r.notified == c.notified && r.calls == c.calls && r.theme == c.theme
  {
    c.(hasCallback := present)
  }

  // ---------------------------------------------------------------------
  // Runs of events within one mount

  datatype Event =
    | Tick(nowMs: int, steps: seq<ParticleStep>)
    | ThemeProp(theme: ThemeMode, draws: seq<Draw>)
    | CallbackProp(present: bool)

  predicate Enabled(c: Controller, ev: Event) {
    match ev
    case Tick(_, steps) => c.scene.Some? && FrameInput(c.scene.value, steps)
    case ThemeProp(_, draws) => ThemeInput(c, draws)
    case CallbackProp(_) => true
  }

  function Step(c: Controller, ev: Event): Controller
    requires Enabled(c, ev)
  {
    match ev
    case Tick(nowMs, steps) => Frame(c, nowMs, steps)
    case ThemeProp(theme, draws) => ApplyTheme(c, theme, draws)
    case CallbackProp(present) => SetCallback(c, present)
  }

  /** Every event of the run is possible in the state it meets. */
  predicate Admissible(c: Controller, evs: seq<Event>)
    decreases |evs|
  {
    |evs| == 0 || (Enabled(c, evs[0]) && Admissible(Step(c, evs[0]), evs[1..]))
  }

  function Run(c: Controller, evs: seq<Event>): Controller
    requires Admissible(c, evs)
    decreases |evs|
  {
    if |evs| == 0 then c else Run(Step(c, evs[0]), evs[1..])
  }

  /** The guard's invariant: at most one call, and a call only once notified. */
  predicate GuardInvariant(c: Controller) {
    c.calls <= 1 && (c.calls == 1 ==> c.notified) && (!c.notified ==> c.calls == 0)
  }

  /** A remount starts a fresh guard: after mounting on a container, whatever
      the previous mount did, every run calls the completion callback at most
      once. */
  lemma RemountNotifiesAtMostOnce(c: Controller, nowMs: int, init: seq<ParticleInit>,
                                  draws: seq<Draw>, evs: seq<Event>)
    requires |init| == ParticleCount && Slots(3 * ParticleCount) <= |draws|
    requires Admissible(Mount(c, true, nowMs, init, draws), evs)
    ensures Run(Mount(c, true, nowMs, init, draws), evs).calls <= 1
  {
    NotifyAtMostOnce(Mount(c, true, nowMs, init, draws), evs);
  }

  /** The completion callback is invoked at most once per mount, whatever the
      sequence of frames, theme changes and callback changes. */
  lemma {:induction false} NotifyAtMostOnce(c: Controller, evs: seq<Event>)
    requires Admissible(c, evs) && GuardInvariant(c)
    ensures GuardInvariant(Run(c, evs))
    ensures Run(c, evs).calls <= 1
    decreases |evs|
  {
    if |evs| > 0 {
      NotifyAtMostOnce(Step(c, evs[0]), evs[1..]);
    }
  }

  /** Once notified, the guard stays set and the count never changes again. */
  lemma {:induction false} NotifiedIsFinal(c: Controller, evs: seq<Event>)
    requires Admissible(c, evs) && c.notified
    ensures Run(c, evs).notified && Run(c, evs).calls == c.calls
    decreases |evs|
  {
    if |evs| > 0 {
      NotifiedIsFinal(Step(c, evs[0]), evs[1..]);
    }
  }

  /** The clock start and the geometry fixed at mount survive every run. */
  lemma {:induction false} RunKeepsGeometry(c: Controller, evs: seq<Event>)
    requires Admissible(c, evs)
    ensures Run(c, evs).scene.Some? <==> c.scene.Some?
    ensures c.scene.Some? ==> var sc, sc' := c.scene.value, Run(c, evs).scene.value;
      sc'.startMs == sc.startMs && sc'.starts == sc.starts && sc'.targets == sc.targets
      && |sc'.positions| == |sc.positions| && |sc'.colors| == |sc.colors|
    ensures c.scene.Some? && WellFormed(c.scene.value) ==> WellFormed(Run(c, evs).scene.value)
    decreases |evs|
  {
    if |evs| > 0 {
      RunKeepsGeometry(Step(c, evs[0]), evs[1..]);
    }
  }

  /** A frame at which the total duration has passed. */
  predicate LateTick(ev: Event, startMs: int) {
    ev.Tick? && ElapsedSeconds(ev.nowMs, startMs) >= TotalDuration
  }

  /** The callback is only ever invoked from a frame at or after 6.0 s. */
  lemma {:induction false} CallOnlyAfterTotal(c: Controller, evs: seq<Event>)
    requires Admissible(c, evs)
    requires Run(c, evs).calls > c.calls
    ensures c.scene.Some?
    ensures exists i :: 0 <= i < |evs| && LateTick(evs[i], c.scene.value.startMs)
    decreases |evs|
  {
    assert |evs| > 0;
    var c1 := Step(c, evs[0]);
    if c1.calls > c.calls {
      assert evs[0].Tick?;
      assert LateTick(evs[0], c.scene.value.startMs);
    } else {
      assert Run(c1, evs[1..]).calls > c1.calls;
      CallOnlyAfterTotal(c1, evs[1..]);
      assert c1.scene.value.startMs == c.scene.value.startMs by {
        match evs[0]
        case Tick(_, _) =>
        case ThemeProp(_, _) =>
        case CallbackProp(_) =>
          assert c1.scene.Some? && c.scene.Some?;
      }
      var i :| 0 <= i < |evs| - 1 && LateTick(evs[1..][i], c1.scene.value.startMs);
      assert LateTick(evs[i + 1], c.scene.value.startMs);
    }
  }

  /** A theme change commutes with a frame: recolouring never disturbs the
      timeline, and the timeline never disturbs the colours. */
  lemma ThemeCommutesWithFrame(c: Controller, theme: ThemeMode, draws: seq<Draw>, nowMs: int, steps: seq<ParticleStep>)
    requires c.scene.Some? && FrameInput(c.scene.value, steps) && ThemeInput(c, draws)
    ensures FrameInput(ApplyTheme(c, theme, draws).scene.value, steps)
    ensures ThemeInput(Frame(c, nowMs, steps), draws)
    ensures Frame(ApplyTheme(c, theme, draws), nowMs, steps) == ApplyTheme(Frame(c, nowMs, steps), theme, draws)
  {
  }
}

=== FILE: intro_timeline.dfy ===
/** The time skeleton of the particle intro: the five phases keyed on elapsed
    seconds, the per-phase normalised progress values and the polynomial
    easing curves built on them (components/ParticleBackground.tsx). */
module IntroTimeline {

  /** Seconds after which the intro counts as complete. */
  const TotalDuration: real := 6.0

  datatype Phase = DripForm | DripFall | Splash | Explosion | Settle {

    /** The numeric phase constant the component compares with `>=`. */
    function Ordinal(): nat {
      match this
      case DripForm => 0
      case DripFall => 1
      case Splash => 2
      case Explosion => 3
      case Settle => 4
    }
  }

  /** Elapsed seconds from two millisecond wall-clock readings. */
  function ElapsedSeconds(nowMs: int, startMs: int): real {
    (nowMs - startMs) as real / 1000.0
  }

  /** The phase selected by the if/else-if chain of the frame callback. */
  function PhaseAt(elapsed: real): Phase {
    if elapsed < 1.0 then DripForm
    else if elapsed < 2.0 then DripFall
    else if elapsed < 3.0 then Splash
    else if elapsed < 4.5 then Explosion
    else Settle
  }

  /** Reference definition: the time window each phase owns.  The first window
      is unbounded below (a clock reading before the start still draws the
      forming drip) and the last is unbounded above. */
  predicate InWindow(p: Phase, t: real) {
    match p
    case DripForm => t < 1.0
    case DripFall => 1.0 <= t < 2.0
    case Splash => 2.0 <= t < 3.0
    case Explosion => 3.0 <= t < 4.5
    case Settle => 4.5 <= t
  }

  /** The selected phase is exactly the one whose window holds `t`; hence for
      every elapsed value, negative ones included, exactly one phase holds. */
  lemma PhaseAtIsWindow(t: real, p: Phase)
    ensures PhaseAt(t) == p <==> InWindow(p, t)
  {
  }

  /** The windows cover the real line and do not overlap. */
  lemma WindowsPartition(t: real)
    ensures exists p :: InWindow(p, t)
    ensures forall p, q :: InWindow(p, t) && InWindow(q, t) ==> p == q
  {
    PhaseAtIsWindow(t, PhaseAt(t));
  }

  /** A later time never selects an earlier phase. */
  lemma PhaseMonotone(t1: real, t2: real)
    requires t1 <= t2
    ensures PhaseAt(t1).Ordinal() <= PhaseAt(t2).Ordinal()
  {
  }

  // ---------------------------------------------------------------------
  // Normalised progress values, each computed only inside its own phase.

  function FallProgress(elapsed: real): (r: real)
    ensures PhaseAt(elapsed) == DripFall ==> 0.0 <= r < 1.0
  {
    (elapsed - 1.0) / 1.0
  }

  function SplashProgress(elapsed: real): (r: real)
    ensures PhaseAt(elapsed) == Splash ==> 0.0 <= r < 1.0
  {
    (elapsed - 2.0) / 1.0
  }

  function ExplosionProgress(elapsed: real): (r: real)
    ensures PhaseAt(elapsed) == Explosion ==> 0.0 <= r < 1.0
  {
    (elapsed - 3.0) / 1.5
  }

  /** Settling progress saturates at 1, which it reaches exactly when the
      intro's total duration has passed. */
  function SettleProgress(elapsed: real): (r: real)
    ensures r <= 1.0
    ensures PhaseAt(elapsed) == Settle ==> 0.0 <= r
    ensures r == 1.0 <==> elapsed >= TotalDuration
  {
    var raw := (elapsed - 4.5) / 1.5;
    if raw < 1.0 then raw else 1.0
  }

  /** The ambient motion is switched on once settling is past 80 percent. */
  predicate AmbientActive(settle: real) {
    settle > 0.8
  }

  function AmbientStrength(settle: real): (r: real)
    ensures AmbientActive(settle) && settle <= 1.0 ==> 0.0 < r <= 1.0
    ensures settle == 1.0 ==> r == 1.0
  {
    (settle - 0.8) / 0.2
  }

  /** Ambient motion starts strictly after 5.7 seconds. */
  lemma AmbientActiveWindow(elapsed: real)
    ensures AmbientActive(SettleProgress(elapsed)) <==> elapsed > 5.7
  {
  }

  // ---------------------------------------------------------------------
  // Easing curves.

  function Cube(t: real): real {
    t * t * t
  }

  lemma CubeMonotoneNonNeg(a: real, b: real)
    requires 0.0 <= a <= b
    ensures Cube(a) <= Cube(b)
  {
    assert a * a <= b * b by {
      assert a * a <= a * b;
      assert a * b <= b * b;
    }
    assert a * a * a <= a * a * b;
    assert a * a * b <= b * b * b;
  }

  /** Cubing is monotone on the whole real line. */
  lemma CubeMonotone(a: real, b: real)
    requires a <= b
    ensures Cube(a) <= Cube(b)
  {
    if 0.0 <= a {
      CubeMonotoneNonNeg(a, b);
    } else if b <= 0.0 {
      CubeMonotoneNonNeg(-b, -a);
      assert Cube(-b) == -Cube(b) && Cube(-a) == -Cube(a);
    } else {
      assert Cube(a) <= 0.0 by { assert a * a >= 0.0; }
      assert Cube(b) >= 0.0 by { assert b * b >= 0.0; }
    }
  }

  lemma CubeUnit(t: real)
    requires 0.0 <= t <= 1.0
    ensures 0.0 <= Cube(t) <= t
  {
    assert 0.0 <= t * t <= t;
    assert t * t * t <= t * t;
  }

  /** The unit-interval facts in implication form, for use inside function bodies. */
  lemma CubeOnUnit(t: real)
    ensures 0.0 <= t <= 1.0 ==> 0.0 <= Cube(t) <= t
  {
    if 0.0 <= t <= 1.0 {
      CubeUnit(t);
    }
  }

  /** `1 - (1 - t)^3`: a decelerating curve that fixes both endpoints. */
  function EaseOutCubic(t: real): (r: real)
    ensures t == 0.0 ==> r == 0.0
    ensures t == 1.0 ==> r == 1.0
    ensures 0.0 <= t <= 1.0 ==> 0.0 <= r <= 1.0
    ensures 0.0 <= t < 1.0 ==> r < 1.0
  {
    CubeOnUnit(1.0 - t);
    1.0 - Cube(1.0 - t)
  }

  /** `t^3`: an accelerating curve that fixes both endpoints. */
  function EaseInCubic(t: real): (r: real)
    ensures t == 0.0 ==> r == 0.0
    ensures t == 1.0 ==> r == 1.0
    ensures 0.0 <= t <= 1.0 ==> 0.0 <= r <= t
  {
    CubeOnUnit(t);
    Cube(t)
  }

  lemma EaseOutCubicMonotone(a: real, b: real)
    requires a <= b
    ensures EaseOutCubic(a) <= EaseOutCubic(b)
  {
    CubeMonotone(1.0 - b, 1.0 - a);
  }

  lemma EaseInCubicMonotone(a: real, b: real)
    requires a <= b
    ensures EaseInCubic(a) <= EaseInCubic(b)
  {
    CubeMonotone(a, b);
  }

  /** The elastic ease.  Its interior value `2^(-10t) * sin((10t - 0.75) * 2pi/3)`
      is transcendental and enters as the parameter `wave`; the endpoints are
      special-cased by `easeOutElastic` and do not depend on it. */
  function EaseOutElastic(t: real, wave: real): (r: real)
    ensures t == 0.0 ==> r == 0.0
    ensures t == 1.0 ==> r == 1.0
    ensures t != 0.0 && t != 1.0 ==> r - 1.0 == wave
  {
    if t == 0.0 then 0.0 else if t == 1.0 then 1.0 else wave + 1.0
  }

  /** The damping factor applied to explosion velocities. */
  function Slowdown(progress: real): (r: real)
    ensures 0.0 <= progress < 1.0 ==> 0.2 < r <= 1.0
    ensures progress == 0.0 ==> r == 1.0
  {
    1.0 - EaseOutCubic(progress) * 0.8
  }

  /** Slowdown only decreases as the explosion proceeds. */
  lemma SlowdownAntitone(a: real, b: real)
    requires a <= b
    ensures Slowdown(b) <= Slowdown(a)
  {
    EaseOutCubicMonotone(a, b);
  }

  /** Inside the explosion phase the slowdown factor lies in (0.2, 1]. */
  lemma ExplosionSlowdownRange(elapsed: real)
    requires PhaseAt(elapsed) == Explosion
    ensures 0.2 < Slowdown(ExplosionProgress(elapsed)) <= 1.0
  {
  }
}

=== FILE: modal_items.dfy ===
/** The record shapes of data/types.ts, the runtime object the modal receives,
    the four structural type guards and the field getters of
    components/RoleModal.tsx. */
module ModalItems {
  import opened Options

  datatype ProjectStatus = Completed | Wip | Ongoing

  /** The string literal each status is written as. */
  function StatusName(s: ProjectStatus): string {
    match s
    case Completed => "completed"
    case Wip => "wip"
    case Ongoing => "ongoing"
  }

  // ---------------------------------------------------------------------
  // The declared shapes

  datatype BaseItem = BaseItem(
    id: string,
    title: string,
    image: string,
    tags: Option<seq<string>>,
    span: Option<string>,
    seeMore: Option<bool>)

  datatype WorkItem = WorkItem(
    base: BaseItem,
    organization: string,
    location: string,
    period: string,
    description: string,
    bullets: seq<string>,
    technologies: seq<string>,
    link: Option<string>)

  datatype ExtracurricularItem = ExtracurricularItem(
    base: BaseItem,
    organization: string,
    location: Option<string>,
    period: string,
    description: string,
    bullets: Option<seq<string>>,
    technologies: Option<seq<string>>,
    link: Option<string>)

  datatype ProjectItem = ProjectItem(
    base: BaseItem,
    description: string,
    technologies: seq<string>,
    link: string,
    projectTags: Option<seq<string>>,
    status: Option<ProjectStatus>,
    bullets: Option<seq<string>>)

  datatype EducationItem = EducationItem(
    base: BaseItem,
    institution: string,
    location: string,
    period: string,
    description: Option<string>,
    courses: Option<seq<string>>)

  // ---------------------------------------------------------------------
  // The runtime object

  /** What the modal actually receives: one object whose keys are those of
      whichever shape built it.  Every key any shape declares appears here; a
      key is present exactly when its field is `Some` (a key present with the
      value `undefined` is not representable). */
  datatype ModalItem = ModalItem(
    id: string,
    title: string,
    image: string,
    tags: Option<seq<string>>,
    span: Option<string>,
    seeMore: Option<bool>,
    organization: Option<string>,
    institution: Option<string>,
    location: Option<string>,
    period: Option<string>,
    description: Option<string>,
    bullets: Option<seq<string>>,
    technologies: Option<seq<string>>,
    link: Option<string>,
    projectTags: Option<seq<string>>,
    status: Option<ProjectStatus>,
    courses: Option<seq<string>>)

  /** An object carrying only the base keys. */
  function BaseObject(b: BaseItem): ModalItem {
    ModalItem(b.id, b.title, b.image, b.tags, b.span, b.seeMore,
      None, None, None, None, None, None, None, None, None, None, None)
  }

  function WorkObject(w: WorkItem): ModalItem {
    BaseObject(w.base).(
      organization := Some(w.organization), location := Some(w.location),
      period := Some(w.period), description := Some(w.description),
      bullets := Some(w.bullets), technologies := Some(w.technologies), link := w.link)
  }

  function ExtracurricularObject(e: ExtracurricularItem): ModalItem {
    BaseObject(e.base).(
      organization := Some(e.organization), location := e.location,
      period := Some(e.period), description := Some(e.description),
      bullets := e.bullets, technologies := e.technologies, link := e.link)
  }

  function ProjectObject(p: ProjectItem): ModalItem {
    BaseObject(p.base).(
      description := Some(p.description), technologies := Some(p.technologies),
      link := Some(p.link), projectTags := p.projectTags, status := p.status,
      bullets := p.bullets)
  }

  function EducationObject(d: EducationItem): ModalItem {
    BaseObject(d.base).(
      institution := Some(d.institution), location := Some(d.location),
      period := Some(d.period), description := d.description, courses := d.courses)
  }

  // ---------------------------------------------------------------------
  // Type guards: key presence only

  predicate IsWorkItem(item: ModalItem) {
    item.bullets.Some? && item.organization.Some? && item.technologies.Some?
  }

  /** Organization-bearing, and not (bullets, technologies, and a non-empty
      technology list). */
  predicate IsExtracurricularItem(item: ModalItem) {
    && item.organization.Some?
    && !(item.bullets.Some? && item.technologies.Some? && |item.technologies.value| > 0)
  }

  predicate IsProjectItem(item: ModalItem) {
    item.link.Some? && item.technologies.Some? && item.organization.None?
  }

  predicate IsEducationItem(item: ModalItem) {
    item.institution.Some?
  }

  // ---------------------------------------------------------------------
  // Getters.  `None` is `undefined` (a declared key that is absent), or the
  // `null` getStatus returns for non-projects.

  function Subtitle(item: ModalItem): Option<string> {
    if IsWorkItem(item) || IsExtracurricularItem(item) then item.organization
    else if IsEducationItem(item) then item.institution
    else Some("")
  }

  function Period(item: ModalItem): Option<string> {
    if IsWorkItem(item) || IsExtracurricularItem(item) || IsEducationItem(item) then item.period
    else Some("")
  }

  function Location(item: ModalItem): Option<string> {
    if IsWorkItem(item) then item.location
    else if IsExtracurricularItem(item) then item.location
    else if IsEducationItem(item) then item.location
    else Some("")
  }

  function Description(item: ModalItem): Option<string> {
    if IsWorkItem(item) || IsExtracurricularItem(item) || IsProjectItem(item) then item.description
    else if IsEducationItem(item) then item.description
    else Some("")
  }

  function Bullets(item: ModalItem): Option<seq<string>> {
    if IsWorkItem(item) then item.bullets
    else if IsExtracurricularItem(item) then item.bullets
    else if IsProjectItem(item) then item.bullets
    else Some([])
  }

  function Technologies(item: ModalItem): Option<seq<string>> {
    if IsWorkItem(item) || IsProjectItem(item) then item.technologies
    else if IsExtracurricularItem(item) then item.technologies
    else Some([])
  }

  function Link(item: ModalItem): Option<string> {
    if IsWorkItem(item) || IsExtracurricularItem(item) then item.link
    else if IsProjectItem(item) then item.link
    else Some("")
  }

  function Status(item: ModalItem): Option<ProjectStatus> {
    if IsProjectItem(item) then item.status else None
  }

  function Courses(item: ModalItem): Option<seq<string>> {
    if IsEducationItem(item) then item.courses else Some([])
  }

  /** Everything the getters project out of one item. */
  datatype Projection = Projection(
    subtitle: Option<string>,
    period: Option<string>,
    location: Option<string>,
    description: Option<string>,
    bullets: Option<seq<string>>,
    technologies: Option<seq<string>>,
    link: Option<string>,
    status: Option<ProjectStatus>,
    courses: Option<seq<string>>)

  function GetterResults(item: ModalItem): Projection {
    Projection(Subtitle(item), Period(item), Location(item), Description(item),
      Bullets(item), Technologies(item), Link(item), Status(item), Courses(item))
  }

  // ---------------------------------------------------------------------
  // Guards on arbitrary objects

  /** An object counts as both work and extracurricular exactly when it is a
      work object whose technology list is empty. */
  lemma WorkAndExtracurricularOverlap(item: ModalItem)
    ensures IsWorkItem(item) && IsExtracurricularItem(item)
      <==> IsWorkItem(item) && item.technologies == Some([])
  {
  }

  /** Projects never carry an organization, so they are never work or
      extracurricular objects. */
  lemma ProjectExcludesOrganization(item: ModalItem)
    ensures IsProjectItem(item) ==> !IsWorkItem(item) && !IsExtracurricularItem(item)
  {
  }

  /** Whenever the work guard holds the getters read the work fields,
      whatever the extracurricular guard says. */
  lemma WorkBranchWins(item: ModalItem)
    requires IsWorkItem(item)
    ensures GetterResults(item) == Projection(item.organization, item.period, item.location,
      item.description, item.bullets, item.technologies, item.link, None,
      if IsEducationItem(item) then item.courses else Some([]))
  {
  }

  /** Status is only ever read from a project, and courses only from an
      education object; anything else gets `null` and an empty list. */
  lemma NeutralValues(item: ModalItem)
    ensures !IsProjectItem(item) ==> Status(item) == None
    ensures !IsEducationItem(item) ==> Courses(item) == Some([])
    ensures !IsWorkItem(item) && !IsExtracurricularItem(item) && !IsEducationItem(item) ==>
      Subtitle(item) == Some("") && Period(item) == Some("") && Location(item) == Some("")
  {
  }

  // ---------------------------------------------------------------------
  // Guards and getters on the declared shapes

  /** A work object is classified as work, never as a project or education,
      and also as extracurricular exactly when its technology list is empty;
      the getters return its own fields either way. */
  lemma WorkObjectProjection(w: WorkItem)
    ensures IsWorkItem(WorkObject(w))
    ensures IsExtracurricularItem(WorkObject(w)) <==> w.technologies == []
    ensures !IsProjectItem(WorkObject(w)) && !IsEducationItem(WorkObject(w))
    ensures GetterResults(WorkObject(w)) == Projection(Some(w.organization), Some(w.period),
      Some(w.location), Some(w.description), Some(w.bullets), Some(w.technologies),
      w.link, None, Some([]))
  {
  }

  /** An extracurricular object with bullets and a non-empty technology list
      is classified as work instead; the getters return its own fields either
      way. */
  lemma ExtracurricularObjectProjection(e: ExtracurricularItem)
    ensures IsExtracurricularItem(ExtracurricularObject(e)) <==>
      !(e.bullets.Some? && e.technologies.Some? && |e.technologies.value| > 0)
    ensures IsWorkItem(ExtracurricularObject(e)) <==> e.bullets.Some? && e.technologies.Some?
    ensures !IsProjectItem(ExtracurricularObject(e)) && !IsEducationItem(ExtracurricularObject(e))
    ensures GetterResults(ExtracurricularObject(e)) == Projection(Some(e.organization), Some(e.period),
      e.location, Some(e.description), e.bullets, e.technologies, e.link, None, Some([]))
  {
  }

  /** A project object is classified only as a project: no subtitle, period
      or location, its own status, and no courses. */
  lemma ProjectObjectProjection(p: ProjectItem)
    ensures IsProjectItem(ProjectObject(p))
    ensures !IsWorkItem(ProjectObject(p)) && !IsExtracurricularItem(ProjectObject(p))
    ensures !IsEducationItem(ProjectObject(p))
    ensures GetterResults(ProjectObject(p)) == Projection(Some(""), Some(""), Some(""),
      Some(p.description), p.bullets, Some(p.technologies), Some(p.link), p.status, Some([]))
  {
  }

  /** An education object is classified only as education: the institution
      as subtitle, its courses, and neutral values elsewhere. */
  lemma EducationObjectProjection(d: EducationItem)
    ensures IsEducationItem(EducationObject(d))
    ensures !IsWorkItem(EducationObject(d)) && !IsExtracurricularItem(EducationObject(d))
    ensures !IsProjectItem(EducationObject(d))
    ensures GetterResults(EducationObject(d)) == Projection(Some(d.institution), Some(d.period),
      Some(d.location), d.description, Some([]), Some([]), Some(""), None, d.courses)
  {
  }
}

=== FILE: modal_view.dfy ===
/** The role modal of components/RoleModal.tsx without its markup: the
    open/close visibility machine, what the modal shows for an item, the
    status badge and the link button. */
module ModalView {
  import opened Options
  import opened ModalItems

  // ---------------------------------------------------------------------
  // Visibility

  /** Delay between closing and unmounting the content, in milliseconds. */
  const CloseDelayMs: nat := 400

  /** `isOpen` as the open/close effect last saw it, the two state hooks,
      whether an animation-frame callback is still queued, and the time left
      on the pending close timer. */
  datatype Visibility = Visibility(
    isOpen: bool,
    visible: bool,
    animating: bool,
    framePending: bool,
    closeTimer: Option<nat>)

  datatype ModalEvent =
    | OpenProp(open: bool)   // a render with this `isOpen` prop
    | AnimationFrame         // the queued frame callback runs
    | Elapse(ms: nat)        // wall-clock time passes

  /** The effect body keyed on `isOpen`.  The previous run's cleanup clears a
      pending close timer; opening shows at once and queues a frame that starts
      the animation; closing stops the animation at once and schedules hiding.
      A queued frame is never cancelled. */
  function OpenEffect(v: Visibility, open: bool): (r: Visibility)
    ensures r.isOpen == open && r.closeTimer.None? == open
    ensures open ==> r.visible && r.framePending && r.animating == v.animating
    ensures !open ==>
      !r.animating && r.visible == v.visible && r.closeTimer == Some(CloseDelayMs)
      && r.framePending == v.framePending
  {
    if open then v.(isOpen := true, visible := true, framePending := true, closeTimer := None)
    else v.(isOpen := false, animating := false, closeTimer := Some(CloseDelayMs))
  }

  /** First render: both hooks start false and the effect runs once. */
  function MountModal(open: bool): Visibility {
    OpenEffect(Visibility(open, false, false, false, None), open)
  }

  function ModalStep(v: Visibility, ev: ModalEvent): Visibility {
    match ev
    case OpenProp(open) =>
      if open == v.isOpen then v else OpenEffect(v, open)
    case AnimationFrame =>
      if v.framePending then v.(animating := true, framePending := false) else v
    case Elapse(ms) =>
      match v.closeTimer
      case None => v
      case Some(left) =>
        if ms >= left then v.(visible := false, closeTimer := None)
        else v.(closeTimer := Some(left - ms))
  }

  function ModalRun(v: Visibility, evs: seq<ModalEvent>): Visibility
    decreases |evs|
  {
    if |evs| == 0 then v else ModalRun(ModalStep(v, evs[0]), evs[1..])
  }

  /** The modal is visible while open, and when closed only while its close
      timer runs; a timer exists only while closed, with time left but never
      more than the delay. */
  predicate Coherent(v: Visibility) {
    && (v.isOpen ==> v.visible && v.closeTimer.None?)
    && (v.closeTimer.Some? ==> !v.isOpen && 0 < v.closeTimer.value <= CloseDelayMs)
    && (v.visible ==> v.isOpen || v.closeTimer.Some?)
  }

  lemma MountIsCoherent(open: bool)
    ensures Coherent(MountModal(open))
    ensures MountModal(open).visible == open
  {
  }

  lemma {:induction false} RunKeepsCoherent(v: Visibility, evs: seq<ModalEvent>)
    requires Coherent(v)
    ensures Coherent(ModalRun(v, evs))
    decreases |evs|
  {
    if |evs| > 0 {
      var v1 := ModalStep(v, evs[0]);
      assert Coherent(v1);
      RunKeepsCoherent(v1, evs[1..]);
    }
  }

  /** Opening shows the modal at once; the next frame starts the animation. */
  lemma OpenThenFrame(v: Visibility)
    requires !v.isOpen
    ensures var o := ModalStep(v, OpenProp(true));
      o.visible && o.closeTimer.None? && ModalStep(o, AnimationFrame).animating
  {
  }

  /** Sum of the time that passes in a run. */
  function ElapsedIn(evs: seq<ModalEvent>): nat
    decreases |evs|
  {
    if |evs| == 0 then 0
    else (if evs[0].Elapse? then evs[0].ms else 0) + ElapsedIn(evs[1..])
  }

  predicate NoOpen(evs: seq<ModalEvent>) {
    forall i :: 0 <= i < |evs| ==> evs[i] != OpenProp(true)
  }

  /** While closed and not reopened, a pending timer counts down exactly by
      the time that passes; visibility is unchanged until it runs out and
      false from then on. */
  lemma {:induction false} CloseCountdown(v: Visibility, evs: seq<ModalEvent>)
    requires Coherent(v) && !v.isOpen && v.closeTimer.Some? && NoOpen(evs)
    ensures var r := ModalRun(v, evs);
      && !r.isOpen
      && (ElapsedIn(evs) < v.closeTimer.value ==>
            r.visible == v.visible && r.closeTimer == Some(v.closeTimer.value - ElapsedIn(evs)))
      && (ElapsedIn(evs) >= v.closeTimer.value ==> !r.visible && r.closeTimer.None?)
    decreases |evs|
  {
    if |evs| > 0 {
      var v1 := ModalStep(v, evs[0]);
      assert NoOpen(evs[1..]) by {
        forall i | 0 <= i < |evs[1..]| ensures evs[1..][i] != OpenProp(true) {
          assert evs[1..][i] == evs[i + 1];
        }
      }
      assert evs[0] != OpenProp(true);
      if v1.closeTimer.Some? {
        CloseCountdown(v1, evs[1..]);
      } else {
        assert !v1.visible && !v1.isOpen;
        StaysHidden(v1, evs[1..]);
      }
    }
  }

  /** Closed, hidden and not reopened: stays hidden. */
  lemma {:induction false} StaysHidden(v: Visibility, evs: seq<ModalEvent>)
    requires !v.isOpen && !v.visible && v.closeTimer.None? && NoOpen(evs)
    ensures !ModalRun(v, evs).visible && !ModalRun(v, evs).isOpen && ModalRun(v, evs).closeTimer.None?
    decreases |evs|
  {
    if |evs| > 0 {
      assert evs[0] != OpenProp(true);
      assert NoOpen(evs[1..]) by {
        forall i | 0 <= i < |evs[1..]| ensures evs[1..][i] != OpenProp(true) {
          assert evs[1..][i] == evs[i + 1];
        }
      }
      StaysHidden(ModalStep(v, evs[0]), evs[1..]);
    }
  }

  /** Closing stops the animation at once and keeps the modal visible for
      exactly the close delay. */
  lemma CloseHidesAfterDelay(v: Visibility, evs: seq<ModalEvent>)
    requires Coherent(v) && v.isOpen && NoOpen(evs)
    ensures var c := ModalStep(v, OpenProp(false));
      && !c.animating && c.visible
      && (ElapsedIn(evs) < CloseDelayMs ==> ModalRun(c, evs).visible)
      && (ElapsedIn(evs) >= CloseDelayMs ==> !ModalRun(c, evs).visible)
  {
    var c := ModalStep(v, OpenProp(false));
    CloseCountdown(c, evs);
  }

  /** As written, the frame queued by opening is not cancelled by closing: if
      the modal is closed before that frame runs, the frame turns the
      animation back on while the modal is closing. */
  lemma StaleFrameReanimates()
    ensures var r := ModalRun(MountModal(false), [OpenProp(true), OpenProp(false), AnimationFrame]);
      !r.isOpen && r.visible && r.animating
  {
  }

  // ---------------------------------------------------------------------
  // What the modal shows

  /** Does `sub` occur in `s` at index `i`? */
  predicate OccursAt(s: string, sub: string, i: int) {
    0 <= i && i + |sub| <= |s| && s[i..i + |sub|] == sub
  }

  /** `String.prototype.includes`. */
  function Includes(s: string, sub: string): (b: bool)
    ensures b <==> exists i :: OccursAt(s, sub, i)
    decreases |s|
  {
    if |s| < |sub| then
      assert forall i :: !OccursAt(s, sub, i);
      false
    else if s[..|sub|] == sub then
      assert OccursAt(s, sub, 0);
      true
    else
      var rest := Includes(s[1..], sub);
      assert forall i :: OccursAt(s, sub, i) && i > 0 ==> OccursAt(s[1..], sub, i - 1) by {
        forall i | OccursAt(s, sub, i) && i > 0 ensures OccursAt(s[1..], sub, i - 1) {
          assert s[1..][i - 1..i - 1 + |sub|] == s[i..i + |sub|];
        }
      }
      assert forall i :: OccursAt(s[1..], sub, i) ==> OccursAt(s, sub, i + 1) by {
        forall i | OccursAt(s[1..], sub, i) ensures OccursAt(s, sub, i + 1) {
          assert s[1..][i..i + |sub|] == s[i + 1..i + 1 + |sub|];
        }
      }
      rest
  }

  datatype LinkButton = LinkButton(href: string, caption: string)

  /** A code host is recognised by name anywhere in the link. */
  predicate IsCodeLink(s: string) {
    Includes(s, "github") || Includes(s, "gitlab")
  }

  /** The link button: shown only for a present, non-empty link, labelled
      "View Code" exactly when the link mentions github or gitlab. */
  function LinkButtonFor(link: Option<string>): (r: Option<LinkButton>)
    ensures r.Some? <==> link.Some? && link.value != ""
    ensures r.Some? ==> r.value.href == link.value
    ensures r.Some? ==> (r.value.caption == "View Code" <==>
      (exists i :: OccursAt(link.value, "github", i)) || (exists i :: OccursAt(link.value, "gitlab", i)))
    ensures r.Some? ==> (r.value.caption == "Learn More" <==> r.value.caption != "View Code")
  {
    match link
    case Some(s) =>
      if s == "" then None
      else Some(LinkButton(s, if IsCodeLink(s) then "View Code" else "Learn More"))
    case None => None
  }

  datatype Tone = Yellow | Blue | Green

  datatype Badge = Badge(text: string, tone: Tone)

  /** The status badge: shown only for a status; "Work in Progress" for
      work in progress, otherwise the raw status string. */
  function StatusBadge(status: Option<ProjectStatus>): (r: Option<Badge>)
    ensures r.Some? <==> status.Some?
    ensures r.Some? ==> (r.value.text == "Work in Progress" <==> status.value == Wip)
    ensures r.Some? && status.value != Wip ==> r.value.text == StatusName(status.value)
    ensures r.Some? ==>
      (r.value.tone == Yellow <==> status.value == Wip)
      && (r.value.tone == Blue <==> status.value == Ongoing)
  {
    match status
    case None => None
    case Some(s) =>
      var tone := if s == Wip then Yellow else if s == Ongoing then Blue else Green;
      Some(Badge(if s == Wip then "Work in Progress" else StatusName(s), tone))
  }

  /** The badge text determines the status. */
  lemma BadgeTextDeterminesStatus(a: ProjectStatus, b: ProjectStatus)
    requires StatusBadge(Some(a)).value.text == StatusBadge(Some(b)).value.text
    ensures a == b
  {
  }

  /** A string section renders only when the value is a non-empty string. */
  function Shown(x: Option<string>): (r: Option<string>)
    ensures r.Some? <==> x.Some? && x.value != ""
    ensures r.Some? ==> r == x
  {
    if x.Some? && x.value != "" then x else None
  }

  /** A list section renders its entries; an absent list renders none. */
  function Entries(x: Option<seq<string>>): seq<string> {
    x.GetOr([])
  }

  datatype View = View(
    title: string,
    subtitle: Option<string>,
    period: Option<string>,
    location: Option<string>,
    description: Option<string>,
    bullets: seq<string>,
    courses: seq<string>,
    technologies: seq<string>,
    tags: seq<string>,
    badge: Option<Badge>,
    link: Option<LinkButton>)

  /** What the modal renders: nothing unless visible with an item, else the
      projected fields, each section only when it has content. */
  function Render(v: Visibility, item: Option<ModalItem>): (r: Option<View>)
    ensures r.None? <==> !v.visible || item.None?
    ensures r.Some? ==> r.value.title == item.value.title
  {
    if !v.visible || item.None? then None
    else
      var it := item.value;
      Some(View(it.title,
        Shown(Subtitle(it)), Shown(Period(it)), Shown(Location(it)), Shown(Description(it)),
        Entries(Bullets(it)), Entries(Courses(it)), Entries(Technologies(it)), Entries(it.tags),
        StatusBadge(Status(it)), LinkButtonFor(Link(it))))
  }

  /** A visible project shows no subtitle, period, location or courses, a
      badge exactly when it has a status, and always a link button (its link
      is declared as a string; an empty one hides the button). */
  lemma ProjectView(v: Visibility, p: ProjectItem)
    requires v.visible
    ensures var r := Render(v, Some(ProjectObject(p))).value;
      && r.subtitle.None? && r.period.None? && r.location.None? && r.courses == []
      && (r.badge.Some? <==> p.status.Some?)
      && (r.link.Some? <==> p.link != "")
      && r.technologies == p.technologies
  {
    ProjectObjectProjection(p);
  }

  /** A visible education entry shows its institution and courses, and never a
      badge, a link button or technologies. */
  lemma EducationView(v: Visibility, d: EducationItem)
    requires v.visible
    ensures var r := Render(v, Some(EducationObject(d))).value;
      && r.subtitle == Shown(Some(d.institution))
      && r.courses == Entries(d.courses)
      && r.badge.None? && r.link.None? && r.technologies == []
  {
    EducationObjectProjection(d);
  }

  /** The work entry at data/work.ts:66-83 has an empty technology list, so
      both the work and the extracurricular guard accept it; it renders with
      its organization, no technologies and no link button. */
  lemma EmptyTechnologiesWorkEntry(v: Visibility)
    requires v.visible
    ensures var w := WorkItem(
        BaseItem("katsu-san", "Scheduling Manager · Kitchen Supervisor", "/images/katsusan.jpg",
          Some(["Management", "Leadership", "Operations"]), None, Some(false)),
        "Katsu San", "Richmond, BC", "Aug 2021 – Dec 2022",
        "Managed kitchen operations, staff scheduling, and training while ensuring premium product quality.",
        ["Created weekly schedules for kitchen staff",
         "Managed staff time-off and sick call requests",
         "Supervised the kitchen on-site and conducted training for new staff",
         "Worked closely with owner to ensure premium product quality"],
        [], None);
      var r := Render(v, Some(WorkObject(w))).value;
      && IsWorkItem(WorkObject(w)) && IsExtracurricularItem(WorkObject(w))
      && r.subtitle == Some("Katsu San") && r.technologies == [] && r.link.None? && r.badge.None?
      && |r.bullets| == 4
  {
  }
}

=== FILE: options.dfy ===
/** Optional values.  Throughout the model `Some(v)` stands for a key that is
    present on a JavaScript object (or a reference that is set) and `None` for
    a missing key, `undefined` or `null`. */
module Options {

  datatype Option<+T> = None | Some(value: T) {

    /** The value, or `default` when absent. */
    function GetOr(default: T): T {
      match this
      case Some(v) => v
      case None => default
    }
  }
}

=== FILE: particle_colors.dfy ===
/** Particle colouring of the intro: the HSL to RGB conversion and the
    theme-dependent recolouring of the flat colour buffer
    (components/ParticleBackground.tsx, `hslToRgb` and `applyColors`). */
module ParticleColors {
  import opened Options

  datatype ThemeMode = Dark | Light

  datatype Rgb = Rgb(r: real, g: real, b: real)

  /** The two `Math.random()` draws one particle consumes per recolouring,
      in call order: saturation first, then lightness. */
  datatype Draw = Draw(sat: real, light: real)

  predicate ValidDraw(d: Draw) {
    0.0 <= d.sat < 1.0 && 0.0 <= d.light < 1.0
  }

  // ---------------------------------------------------------------------
  // HSL to RGB

  /** The upper bound `q` of the conversion. */
  function Q(s: real, l: real): real {
    if l < 0.5 then l * (1.0 + s) else l + s - l * s
  }

  /** The lower bound `p`, mirrored from `q` about the lightness. */
  function P(s: real, l: real): real {
    2.0 * l - Q(s, l)
  }

  /** The single wrap `hue2rgb` applies to a hue offset: add one if negative, then
      subtract one if above one. */
  function Wrap(t: real): (r: real)
    ensures -1.0 <= t <= 2.0 ==> 0.0 <= r <= 1.0
  {
    var t1 := if t < 0.0 then t + 1.0 else t;
    if t1 > 1.0 then t1 - 1.0 else t1
  }

  /** Linear interpolation from `p` (at 0) to `q` (at 1). */
  function Lerp(p: real, q: real, a: real): (r: real)
    ensures p <= q && 0.0 <= a <= 1.0 ==> p <= r <= q
  {
    ScaleWithin(q - p, a);
    p + (q - p) * a
  }

  /** One channel: a piecewise-linear function of the wrapped hue offset
      that ramps up from `p`, holds `q`, ramps back down and holds `p`.  The
      ramps `p + (q - p) * 6t` and `p + (q - p) * (2/3 - t) * 6` are written as
      interpolations. */
  function Hue2Rgb(p: real, q: real, t: real): real {
    var w := Wrap(t);
    if w < 1.0 / 6.0 then Lerp(p, q, 6.0 * w)
    else if w < 1.0 / 2.0 then q
    else if w < 2.0 / 3.0 then Lerp(p, q, (2.0 / 3.0 - w) * 6.0)
    else p
  }

  lemma ScaleWithin(d: real, a: real)
    ensures 0.0 <= d && 0.0 <= a <= 1.0 ==> 0.0 <= d * a <= d
  {
  }

  predicate Unit(x: real) {
    0.0 <= x <= 1.0
  }

  predicate Between(lo: real, x: real, hi: real) {
    lo <= x <= hi
  }


  /** `p <= l <= q`, both inside [0, 1], whenever `s` and `l` are. */
  lemma BoundsInUnit(s: real, l: real)
    requires Unit(s) && Unit(l)
    ensures 0.0 <= P(s, l) <= l <= Q(s, l) <= 1.0
  {
    if l < 0.5 {
      var m := l * s;
      ScaleWithin(l, s);
      assert Q(s, l) == l + m;
    } else {
      var m := (1.0 - l) * s;
      ScaleWithin(1.0 - l, s);
      assert m <= 1.0 - l;
      assert m == s - l * s;
      assert Q(s, l) == l + m;
    }
  }

  /** For an offset at most one period out of range, the channel lies between
      `p` and `q`. */
  lemma Hue2RgbBetween(p: real, q: real, t: real)
    requires p <= q && -1.0 <= t <= 2.0
    ensures Between(p, Hue2Rgb(p, q, t), q)
  {
  }

  /** `hslToRgb`.  Gray (s = 0) keeps the lightness in all three channels;
      otherwise, for inputs in [0, 1], each channel lies between `p` and `q`
      and so inside [0, 1]. */
  function HslToRgb(h: real, s: real, l: real): (c: Rgb)
    ensures s == 0.0 ==> c == Rgb(l, l, l)
    ensures Unit(h) && Unit(s) && Unit(l) ==>
      && Between(P(s, l), c.r, Q(s, l))
      && Between(P(s, l), c.g, Q(s, l))
      && Between(P(s, l), c.b, Q(s, l))
      && Unit(c.r) && Unit(c.g) && Unit(c.b)
  {
    if s == 0.0 then Rgb(l, l, l)
    else
      var q := Q(s, l);
      var p := P(s, l);
      ChannelsBetween(h, s, l);
      Rgb(Hue2Rgb(p, q, h + 1.0 / 3.0), Hue2Rgb(p, q, h), Hue2Rgb(p, q, h - 1.0 / 3.0))
  }

  lemma ChannelsBetween(h: real, s: real, l: real)
    ensures Unit(h) && Unit(s) && Unit(l) ==>
      && Between(P(s, l), Hue2Rgb(P(s, l), Q(s, l), h + 1.0 / 3.0), Q(s, l))
      && Between(P(s, l), Hue2Rgb(P(s, l), Q(s, l), h), Q(s, l))
      && Between(P(s, l), Hue2Rgb(P(s, l), Q(s, l), h - 1.0 / 3.0), Q(s, l))
      && 0.0 <= P(s, l) && Q(s, l) <= 1.0
  {
    if Unit(h) && Unit(s) && Unit(l) {
      BoundsInUnit(s, l);
      Hue2RgbBetween(P(s, l), Q(s, l), h + 1.0 / 3.0);
      Hue2RgbBetween(P(s, l), Q(s, l), h);
      Hue2RgbBetween(P(s, l), Q(s, l), h - 1.0 / 3.0);
    }
  }

  // ---------------------------------------------------------------------
  // Reading HSL back from RGB (the standard inverse, used as the partner of
  // the conversion).

  function Max3(a: real, b: real, c: real): real {
    if a >= b && a >= c then a else if b >= c then b else c
  }

  function Min3(a: real, b: real, c: real): real {
    if a <= b && a <= c then a else if b <= c then b else c
  }

  /** HSL lightness of an RGB colour: the mean of its extreme channels. */
  function Lightness(c: Rgb): real {
    (Max3(c.r, c.g, c.b) + Min3(c.r, c.g, c.b)) / 2.0
  }

  /** HSL saturation of an RGB colour: the chroma over `1 - |2L - 1|`
      (zero for grays and for pure black or white). */
  function Saturation(c: Rgb): real {
    var mx := Max3(c.r, c.g, c.b);
    var mn := Min3(c.r, c.g, c.b);
    SaturationFromExtremes(mx, mn)
  }

  function SaturationFromExtremes(mx: real, mn: real): real {
    var d := if mx + mn < 1.0 then mx + mn else 2.0 - mx - mn;
    if mx == mn || d == 0.0 then 0.0 else (mx - mn) / d
  }

  lemma SaturationOfBounds(s: real, l: real)
    requires Unit(s) && 0.0 < l < 1.0
    ensures SaturationFromExtremes(Q(s, l), P(s, l)) == s
  {
    var q, p := Q(s, l), P(s, l);
    assert q + p == 2.0 * l;
    if l < 0.5 {
      assert q - p == (2.0 * l) * s;
    } else {
      assert q - p == (2.0 - 2.0 * l) * s;
    }
  }

  /** For inputs in [0, 1] the brightest channel is exactly `q` and the darkest
      exactly `p`: one of the three hue offsets always lands on the plateau at
      `q` and another on the floor at `p`. */
  lemma HslExtremes(h: real, s: real, l: real)
    requires Unit(h) && Unit(s) && Unit(l)
    ensures var c := HslToRgb(h, s, l);
      Max3(c.r, c.g, c.b) == Q(s, l) && Min3(c.r, c.g, c.b) == P(s, l)
  {
    var c := HslToRgb(h, s, l);
    if s == 0.0 {
      assert Q(s, l) == l;
    } else {
      var p, q := P(s, l), Q(s, l);
      assert Between(p, c.r, q) && Between(p, c.g, q) && Between(p, c.b, q);
      if h < 1.0 / 6.0 {
        assert c.r == q && c.b == p;
      } else if h < 1.0 / 3.0 {
        assert c.g == q && c.b == p;
      } else if h < 1.0 / 2.0 {
        assert c.g == q && c.r == p;
      } else if h < 2.0 / 3.0 {
        assert c.b == q && c.r == p;
      } else if h < 5.0 / 6.0 {
        assert c.b == q && c.g == p;
      } else {
        assert c.r == q && c.g == p;
      }
    }
  }

  /** Round trip of the lightness: converting to RGB and reading the HSL
      lightness back returns the lightness put in. */
  lemma LightnessRoundTrip(h: real, s: real, l: real)
    requires Unit(h) && Unit(s) && Unit(l)
    ensures Lightness(HslToRgb(h, s, l)) == l
  {
    HslExtremes(h, s, l);
  }

  /** Round trip of the saturation, for lightness strictly inside (0, 1)
      (at the ends every saturation gives black or white). */
  lemma SaturationRoundTrip(h: real, s: real, l: real)
    requires Unit(h) && Unit(s) && 0.0 < l < 1.0
    ensures Saturation(HslToRgb(h, s, l)) == s
  {
    HslExtremes(h, s, l);
    SaturationOfBounds(s, l);
  }

  // ---------------------------------------------------------------------
  // Theme bands and the per-particle colour

  /** JavaScript's `x % 1`: the remainder truncated toward zero. */
  function Mod1(x: real): (r: real)
    ensures x >= 0.0 ==> 0.0 <= r < 1.0
  {
    if x >= 0.0 then x - x.Floor as real else x + (-x).Floor as real
  }

  /** `(i * 0.1) % 1`: a hue rotation that repeats every ten particles. */
  function HueShift(i: nat): real {
    Mod1(i as real * 0.1)
  }

  function Hue(i: nat, mode: ThemeMode): real {
    match mode
    case Dark => Mod1(0.6 + HueShift(i) * 0.3)
    case Light => Mod1(0.55 + HueShift(i) * 0.35)
  }

  function SaturationOf(mode: ThemeMode, d: Draw): real {
    match mode
    case Dark => 0.7 + d.sat * 0.3
    case Light => 0.9 + d.sat * 0.1
  }

  function LightnessOf(mode: ThemeMode, d: Draw): real {
    match mode
    case Dark => 0.6 + d.light * 0.3
    case Light => 0.3 + d.light * 0.15
  }

  /** The lightness band of a theme, as a half-open interval. */
  predicate InLightnessBand(mode: ThemeMode, l: real) {
    match mode
    case Dark => 0.6 <= l < 0.9
    case Light => 0.3 <= l < 0.45
  }

  /** With draws from [0, 1): hue in [0, 1), saturation in the theme's band
      ([0.7, 1) or [0.9, 1)) and lightness in the theme's band. */
  lemma ThemeBands(i: nat, mode: ThemeMode, d: Draw)
    requires ValidDraw(d)
    ensures 0.0 <= Hue(i, mode) < 1.0
    ensures mode == Dark ==> 0.7 <= SaturationOf(mode, d) < 1.0
    ensures mode == Light ==> 0.9 <= SaturationOf(mode, d) < 1.0
    ensures InLightnessBand(mode, LightnessOf(mode, d))
  {
  }

  /** The colour `applyColors` assigns to particle `i`. */
  function ParticleColor(i: nat, mode: ThemeMode, d: Draw): Rgb {
    HslToRgb(Hue(i, mode), SaturationOf(mode, d), LightnessOf(mode, d))
  }

  /** Every particle colour has channels in [0, 1] and, read back as HSL, the
      lightness band of its theme: dark-theme particles are brighter than
      light-theme ones. */
  lemma {:induction false} ParticleColorInBand(i: nat, mode: ThemeMode, d: Draw)
    requires ValidDraw(d)
    ensures var c := ParticleColor(i, mode, d);
      Unit(c.r) && Unit(c.g) && Unit(c.b) && InLightnessBand(mode, Lightness(c))
  {
    ThemeBands(i, mode, d);
    LightnessRoundTrip(Hue(i, mode), SaturationOf(mode, d), LightnessOf(mode, d));
  }

  lemma {:induction false} DarkBrighterThanLight(i: nat, j: nat, d: Draw, e: Draw)
    requires ValidDraw(d) && ValidDraw(e)
    ensures Lightness(ParticleColor(i, Dark, d)) > Lightness(ParticleColor(j, Light, e))
  {
    ParticleColorInBand(i, Dark, d);
    ParticleColorInBand(j, Light, e);
  }

  // ---------------------------------------------------------------------
  // The flat colour buffer

  /** Channel `j` (0 red, 1 green, 2 blue) of a colour. */
  function Channel(c: Rgb, j: nat): real {
    if j == 0 then c.r else if j == 1 then c.g else c.b
  }

  /** Iterations of `for (i = 0; i < colors.length / 3; i++)`: the real quotient
      makes the last partial triple count as a particle. */
  function Slots(n: nat): nat {
    (n + 2) / 3
  }

  /** Reference contents of a recoloured buffer of length `n`: index `k` holds
      channel `k % 3` of particle `k / 3`. */
  function Recolored(n: nat, mode: ThemeMode, draws: seq<Draw>): (r: seq<real>)
    requires Slots(n) <= |draws|
    ensures |r| == n
  {
    seq(n, k requires 0 <= k < n => Channel(ParticleColor(k / 3, mode, draws[k / 3]), k % 3))
  }

  /** A typed-array store: writes past the end are silently dropped. */
  function Store(buf: seq<real>, k: nat, v: real): (r: seq<real>)
    ensures |r| == |buf|
    ensures forall j :: 0 <= j < |buf| ==> r[j] == if j == k then v else buf[j]
  {
    if k < |buf| then buf[k := v] else buf
  }

  /** `applyColors`: a no-op when the buffer is absent; otherwise each
      particle `i` writes only indices `3i`, `3i+1`, `3i+2`, every index of the
      buffer ends up holding its particle's channel, and the length is kept.
      The component returns early when either the colour array or its buffer
      attribute is missing; the mount effect sets both together, so one
      `Option` stands for the pair. */
  method ApplyColors(colors: Option<seq<real>>, mode: ThemeMode, draws: seq<Draw>)
    returns (r: Option<seq<real>>)
    requires colors.Some? ==> Slots(|colors.value|) <= |draws|
    ensures colors.None? ==> r.None?
    ensures colors.Some? ==> r.Some? && |r.value| == |colors.value|
    ensures colors.Some? ==> forall k :: 0 <= k < |r.value| ==>
      r.value[k] == Channel(ParticleColor(k / 3, mode, draws[k / 3]), k % 3)
    ensures colors.Some? ==> r.value == Recolored(|colors.value|, mode, draws)
  {
    if colors.None? {
      return None;
    }
    var buf := colors.value;
    var i := 0;
    while i * 3 < |buf|
      invariant 0 <= i <= Slots(|buf|)
      invariant |buf| == |colors.value|
      invariant forall k :: 0 <= k < |buf| && k < 3 * i ==>
        buf[k] == Channel(ParticleColor(k / 3, mode, draws[k / 3]), k % 3)
      invariant forall k :: 3 * i <= k < |buf| ==> buf[k] == colors.value[k]
    {
      var c := ParticleColor(i, mode, draws[i]);
      buf := Store(buf, i * 3, c.r);
      buf := Store(buf, i * 3 + 1, c.g);
      buf := Store(buf, i * 3 + 2, c.b);
      i := i + 1;
    }
    r := Some(buf);
  }
}
